=== FILE: README.md ===
# DeepBook event processor: pool-metadata cache and enrichment join

This project models the stateful core of a DeepBook (Sui) event indexer. The
indexer handles two groups of events:

- **Pool-created events.** The handler resolves the base and quote coins'
  metadata through a remote service. A cached resolver (`getCoinMetadata`)
  does the lookup. The handler then stores a pool record in a shared pool
  cache.
- **Order-lifecycle events.** These are order filled, placed, expired,
  canceled, modified, flash loan borrowed, and fill. Each handler looks up
  the pool record, joins its symbols, decimals and fees into the emitted
  record, and divides raw quantities by a power of ten.

The model is functional. A `State` holds the two bounded caches (pool
records and coin metadata). Handlers are pure functions over that state.
The remote metadata service is a per-call outcome parameter with three
values: `Ok(meta)`, `Empty` (the service answered `null`) or `Throws`. The
processor's `LRUCache` instances are modelled by `Lru.Cache`: a contents
map plus a recency order, with least-recently-used eviction and no expiry.
Quantities are normalised over exact rationals.

Modules:

- `Optional` defines `Option`.
- `Lru` is the bounded cache.
- `Decimals` holds `Pow10`, `EffDecimals` (the `|| 1` default) and `Normalize`.
- `CoinMetadata` holds `getCoinMetadata`.
- `PoolCreation` holds the pool record, the state and `onEventPoolCreated`.
- `OrderEvents` holds the seven order-event handlers and the join.
- `Pipeline` runs events one after another.

Some of this behaviour may be unexpected. The model follows the code as written:

- A pool-created event for a pool id that is already cached overwrites the
  stored record (`poolCache.set` is unconditional). Nothing keeps the first
  record.
- The decimals exponent is chosen with `x || 1`, so a cached decimals value
  of `0` is treated like a missing one. A stored `0` scales by 10, not by 1.
- Unknown pools also use exponent 1. For an order filled in an unknown pool
  the record reports `base_decimals = 1` (not null), and the base quantity
  is divided by 10 (`123456` becomes `12345.6`).
- The pool record never holds a creation time or sender. `pool_created_at`
  and `pool_sender` are emitted only by the order-filled handler, and there
  they are always `undefined`.
- The flash-loan handler does look up the pool by its `pool_id`. Only the
  fill handler skips the lookup, using exponent 1 for both quantities.
- The base and quote metadata are resolved one after the other, not
  concurrently. The quote resolution sees the coin cache the base
  resolution left behind.
- A remote answer of `null` (no error) is not cached, so that coin is asked
  for again on the next call. A thrown request caches `null`, and that call
  itself returns `undefined`.

## Model

| member | source | states |
|---|---|---|
| Lru.Set | src/deepbook/poolCreationProcessor.ts:53 | A `set` stores the value under the key and makes that key the most recently used. Every other key keeps its value and its place in the recency order relative to the rest. Only a new key arriving in a full cache removes anything, and then only the least recently used key. The cache stays within capacity. |
| Lru.Touch | src/deepbook/orderEventsProcessor.ts:21 | A `get` never changes the cache contents. A present key becomes the most recently used, and every other key keeps its relative recency order. A missing key changes nothing. |
| Lru.SizeBounded | src/deepbook/poolCreationProcessor.ts:12-15 | A cache never holds more entries than its `max`. |
| Lru.EvictsLeastRecentlyUsed | src/deepbook/poolCreationProcessor.ts:12-15 | Inserting a new key into a full cache evicts the least recently used key, which is the front of the recency order that `Set` and `Touch` maintain, so a later lookup of that key misses. All other entries survive unchanged. |
| Decimals.EffDecimals | src/deepbook/orderEventsProcessor.ts:25-26 | `decimals \|\| 1` is at least 1. It is the stored value when that value is present and non-zero, and 1 for a missing value, `null` or `0`. |
| Decimals.Normalize | src/deepbook/orderEventsProcessor.ts:64-65 | The normalised value times 10^d is exactly the raw quantity. It lies between 0 and the raw value, and is at most a tenth of it when d > 0. |
| Decimals.DefaultExponentDividesByTen | src/deepbook/orderEventsProcessor.ts:73 | Exponent 0 would leave a quantity unchanged. The `\|\| 1` default divides it by ten, and a stored 0 behaves exactly like a missing value. |
| CoinMetadata.NormalizeKey | src/deepbook/poolCreationProcessor.ts:74-76 | The key always starts with `0x`. It equals the input exactly when the input already starts with `0x`; otherwise it is `0x` followed by the input. |
| CoinMetadata.NormalizeIdempotent | src/deepbook/poolCreationProcessor.ts:74-76 | Normalising a key twice gives the same key as normalising it once. |
| CoinMetadata.Resolve | src/deepbook/poolCreationProcessor.ts:73-92 | A remote request is made exactly on a cache miss, for the normalised key. A hit, including a cached `null`, returns the entry and keeps the contents. On a miss, metadata is stored and returned, an empty answer stores nothing and returns `undefined`, and a throw stores `null` and returns `undefined`. A stored key becomes the most recently used. No other key changes, except that a full cache may evict its least recently used key. |
| CoinMetadata.ResolveKeepsRecency | src/deepbook/poolCreationProcessor.ts:78-89 | After a call, the other coins keep their relative recency order. The only exception is a miss that stores into a full cache, which drops exactly the least recently used coin and keeps the order of the rest. |
| CoinMetadata.SuccessIsCached | src/deepbook/poolCreationProcessor.ts:79-85 | After one successful request for a coin, later calls under either spelling of its key return the same metadata without a request, whatever the service would do. |
| CoinMetadata.FailureIsCachedAsNull | src/deepbook/poolCreationProcessor.ts:86-91 | A request that throws returns `undefined`. The next call for the coin returns `null` without a request. |
| CoinMetadata.EmptyIsRetried | src/deepbook/poolCreationProcessor.ts:81-85 | An empty answer leaves the cache as it was, so the next call for the coin makes a request again. |
| CoinMetadata.HitIgnoresRemote | src/deepbook/poolCreationProcessor.ts:78-79 | On a hit, the result and cache do not depend on what the remote service would do. |
| CoinMetadata.PrefixedSpellingShared | src/deepbook/poolCreationProcessor.ts:74-78 | A coin type and its `0x`-prefixed spelling resolve identically, because they share one cache entry. |
| PoolCreation.Init | src/deepbook/poolCreationProcessor.ts:69-71 | The processor starts with both caches empty, bounded at 100,000 pool records and 10,000 coin entries. |
| PoolCreation.CachesBounded | src/deepbook/poolCreationProcessor.ts:12-15 | The pool cache never holds more than 100,000 records, and the coin cache never more than 10,000 entries. |
| PoolCreation.OnPoolCreated | src/deepbook/poolCreationProcessor.ts:27-53 | A pool record is stored if and only if the event has two type arguments. Base and quote ids are type arguments 0 and 1 as given. Fees, tick, lot, min size, whitelist flag and treasury are copied from the event. Its base and quote symbol and decimals are what the base resolution and then the quote resolution return, with null for a missing value. The coin cache is left as the two resolutions leave it, or as the base resolution leaves it when the handler throws after one type argument. Afterwards the pool id maps to exactly this record. The pool cache is the result of one `Lru.Set` of this record, so the pool becomes the most recently used and the others keep their recency order. A record is evicted only when a new pool id arrives in a full cache, and then only the least recently used one. A handler that throws leaves the pool cache untouched. There are at most two remote requests. |
| PoolCreation.OtherPoolsKept | src/deepbook/poolCreationProcessor.ts:53 | Every pool still cached after a pool-created event keeps its record. A pool that disappears was the least recently used one, evicted because a new pool id arrived in a full cache. |
| PoolCreation.BaseMetadataSource | src/deepbook/poolCreationProcessor.ts:35-44 | The record's base symbol and decimals are the cached metadata's values when the coin was cached. They are null when a failure was cached, the fetched values on a successful miss, and null after an empty or throwing miss. |
| PoolCreation.QuoteMetadataSource | src/deepbook/poolCreationProcessor.ts:36-44 | The record's quote symbol and decimals are the metadata cached for the quote coin after the base resolution, or null when a failure was cached. On a miss they are the fetched values, or null after an empty or throwing request. |
| PoolCreation.BaseEntryKept | src/deepbook/poolCreationProcessor.ts:35-36 | The base coin's entry is still in the coin cache after the quote resolution, because it has just become the most recently used key and cannot be evicted. |
| PoolCreation.CachedEntryMatchesResult | src/deepbook/poolCreationProcessor.ts:79-91 | The entry a resolution leaves cached for a coin yields the same symbol and decimals as the value it returned. This covers a cached `null` after a throw, which returned `undefined`. |
| PoolCreation.CachedBaseNotRequested | src/deepbook/poolCreationProcessor.ts:35-36 | A pool-created event whose base coin is already cached makes no remote request for that coin, neither for the base nor for the quote. |
| PoolCreation.RequestsInOrder | src/deepbook/poolCreationProcessor.ts:35-36 | The handler's remote requests are the base coin's resolution's followed by the quote coin's, made against the cache the base resolution left. A coin is requested only when the cache misses it. A handler that throws after one type argument has made only the base request. |
| PoolCreation.CoinResolvedOnceAcrossPools | src/deepbook/poolCreationProcessor.ts:73-91 | After one pool-created event resolves a coin or caches its failure, the next pool-created event with that base coin makes no request for it and records the same base metadata. |
| PoolCreation.RecreationOverwrites | src/deepbook/poolCreationProcessor.ts:53 | A second pool-created event for the same pool id replaces the stored record with the new one. |
| OrderEvents.PoolFieldsFor | src/deepbook/orderEventsProcessor.ts:86-94 | When a record is cached, the pool block carries its asset ids, symbols (null when unresolved), stored quote decimals and both fees. Without one, every field is `undefined`. Base decimals are always defaulted. |
| OrderEvents.OrderFilledRecord | src/deepbook/orderEventsProcessor.ts:19-67 | Every decoded field, including ids, price, side flags and fees, is emitted unchanged: the payload read back from the record is the event's. Order-filled joins ids and symbols from the cache and reports both decimals defaulted. Its fees are the event's own. `pool_created_at` and `pool_sender` are always `undefined`. Base and quote quantities are each scaled by their own emitted decimals. |
| OrderEvents.PoolScopedRecord | src/deepbook/orderEventsProcessor.ts:68-270 | Placed, expired, canceled, modified and flash-loan records emit every decoded field unchanged, so the payload read back from the record is the event's, and they carry the pool block of the cached record. |
| OrderEvents.FillRecord | src/deepbook/orderEventsProcessor.ts:275-309 | The fill record emits every decoded field unchanged, so the payload read back from it is the event's. Both quantities are divided by exactly 10. |
| OrderEvents.Enrich | src/deepbook/orderEventsProcessor.ts:19-310 | Every event yields exactly one record, under its kind's event name, with the event sender and its whole decoded payload. The five pool-scoped kinds carry the pool block of the cached record, or of a miss. |
| OrderEvents.NormalizedQuantities | src/deepbook/orderEventsProcessor.ts:64-308 | Each record has the raw and normalised quantities a per-kind reference table lists, in order: filled (base by base decimals, quote by quote decimals); placed (placed quantity); expired and canceled (original and canceled quantities); modified (previous, filled and new quantities); flash loan (borrowed quantity). These all scale by base decimals. Fill scales base and quote by exponent 1. Each normalised value times 10^exponent is its raw value. |
| OrderEvents.PoolJoin | src/deepbook/orderEventsProcessor.ts:86-94 | A pool-scoped event is emitted whether or not its pool is cached, with its whole decoded payload. Its base decimals are the cached record's after the `\|\| 1` default, and 1 on a miss. |
| OrderEvents.PlacedOnCachedPool | src/deepbook/orderEventsProcessor.ts:68-106 | A placed order on a cached pool emits a placed record. The record carries that pool's taker fee and defaulted base decimals. Its normalised quantity is the placed quantity divided by 10 to those decimals. |
| OrderEvents.PoolBlockScaling | src/deepbook/orderEventsProcessor.ts:229-233 | In the five pool-scoped records, every normalised quantity times 10^(emitted base decimals) is its raw quantity. Modified scales all three quantities by the same base decimals. |
| OrderEvents.FillIgnoresPoolCache | src/deepbook/orderEventsProcessor.ts:276-279 | The fill record is the same whatever the pool cache holds. Its base quantity is divided by 10. |
| OrderEvents.HandleOrderEvent | src/deepbook/orderEventsProcessor.ts:20-21 | An order handler emits the enrichment of the current cache contents. It changes neither cache's contents. The looked-up pool becomes most recently used, and the other pools keep their relative recency order. The fill handler changes nothing. |
| Pipeline.Step | src/processor.ts:4-8 | Order events emit exactly one record each. They make no remote request and change neither cache's contents. A pool-created event makes at most two requests. |
| Pipeline.StepHandlesOrder | src/deepbook/orderEventsProcessor.ts:21 | An order event leaves the state exactly as the order handler leaves it, including the pool that the lookup refreshes to most recently used. |
| Pipeline.StepCreatesPool | src/deepbook/poolCreationProcessor.ts:27-63 | A pool-created event runs the pool-created handler: the state and the remote requests are the handler's. The pool's record is emitted when the pool is created, and nothing when the handler throws. |
| Pipeline.Process | src/processor.ts:4-8 | Over any event stream, handled in order, the caches stay within bounds. There are at most two remote requests per pool-created event and at most one record per event. A stream of order events only leaves both caches' contents unchanged and emits one record per event. |
| Pipeline.OrderStreamOutputs | src/processor.ts:4-8 | A stream of order events emits one record per event, in the events' order. Each record is the event enriched against the pool cache as it stood before the stream. |
| Pipeline.CreatedPoolSurvivesOrders | src/deepbook/poolCreationProcessor.ts:53 | Processing a stream that starts with a pool-created event, followed only by order events, ends with the created record still stored under the pool id. |
| Pipeline.CreatedPoolJoinedLater | src/deepbook/orderEventsProcessor.ts:87-94 | After processing a pool-created event and any run of order events, an order event for that pool emits one record. It reports the fees, base asset id and defaulted base decimals recorded at creation. |
| Pipeline.UnknownPoolDegrades | src/deepbook/orderEventsProcessor.ts:70-73 | An order event for an uncached pool still emits one record, with base decimals 1 and undefined symbol and fee. |
| Pipeline.ExamplePoolStored | src/deepbook/poolCreationProcessor.ts:27-53 | Worked example: creating a pool from a fresh state with 6-decimal base metadata stores a record with base decimals 6 and the event's taker fee under the pool id. |
| Pipeline.ExamplePlacedOrder | src/deepbook/orderEventsProcessor.ts:68-106 | Worked example: a pool with 6 base decimals, then an order placed for 5,000,000 raw units, reports base decimals 6, the pool's taker fee and 5.0 placed. |
| Pipeline.ExampleUnknownPoolFill | src/deepbook/orderEventsProcessor.ts:19-67 | Worked example: an order filled in an unknown pool with base quantity 123,456 reports base decimals 1, an undefined base symbol and a normalised base quantity of 12,345.6. |

## Left out

- The four transaction gas fields every handler emits (`storage_cost`, `gas_computation`, `nonrefundable_storage_fee`, `storage_rebate`) are not modelled. They pass external data through with no logic.
- Emission is not modelled as a call. Each handler returns the record it would hand to `ctx.eventLogger.emit`.
- The remote `ctx.client.getCoinMetadata` call becomes an outcome parameter. Only `symbol` and `decimals` of its answer are modelled, because the handlers read nothing else.
- The `console.warn` in the resolver's error path is left out, since it is logging only.
- The unused module-level `coinsMetadata` map (src/deepbook/poolCreationProcessor.ts:8) is left out.
- Sentio binding, `fetchConfig` and handler registration (src/processor.ts) are left out. They decide which events arrive, not what the handlers do with them.
- The plain renaming handlers of src/deepbook/eventsProcessor.ts are left out, including its duplicate order-placed registration, because they carry no cache or scaling logic.
- Concurrency between handlers is not modelled. Events are handled one at a time, each handler to completion, including its awaits.
- Floating point is not modelled. `Number(bigint)` rounding above 2^53, and IEEE rounding of `Math.pow` and division, are replaced by exact rationals.
- The `lru-cache` library's internals and options are reduced to a recency order with least-recently-used eviction. No claim is made about its internal bookkeeping.
- `normalizeSuiAddress` is commented out in the source (src/deepbook/poolCreationProcessor.ts:77). Only the `0x` prefix rule is modelled.
- Pipeline.CreatedPoolJoinedLater: requires that only order events occur between creation and lookup, because a later pool-created event could evict or replace the record.

=== FILE: coin_metadata.dfy ===
/** The coin-metadata resolver `getCoinMetadata`: it prefixes the coin type
    with `0x` when needed, answers from a bounded cache when it can, and
    otherwise asks the remote metadata service once, caching a successful
    answer and caching `null` when the request throws. */
module CoinMetadata {
  import opened Optional
  import Lru

  /** The two fields of a coin's metadata the processor uses. */
  datatype CoinMeta = CoinMeta(symbol: string, decimals: nat)

  /** What the remote service does for one request: answer with metadata,
      answer with nothing (`null`), or throw. */
  datatype FetchOutcome = Ok(meta: CoinMeta) | Empty | Throws

  /** The JavaScript value `getCoinMetadata` returns: a metadata object,
      `null` or `undefined`. (Emitted record fields, which are scalars, have
      their own `OrderEvents.Value`.) */
  datatype Lookup = Undefined | Null | Found(meta: CoinMeta)

  /** Cached entries: `Some(meta)` for a resolved coin, `None` for the
      cached `null` that marks a failed request. A key with no entry has
      never been resolved (or was evicted). */
  type CoinCache = Lru.Cache<Option<CoinMeta>>

  /** The coin-metadata cache holds at most 10,000 entries. */
  const Capacity: nat := 10_000

  /** `s.startsWith('0x')`. */
  predicate HasPrefix(s: string) {
    |s| >= 2 && s[..2] == "0x"
  }

  /** The cache key and request argument for a coin type. */
  function NormalizeKey(coinType: string): (key: string)
    ensures HasPrefix(key)
    ensures key == coinType <==> HasPrefix(coinType)
    ensures key == coinType || key == "0x" + coinType
  {
    if HasPrefix(coinType) then coinType else "0x" + coinType
  }

  /** Normalising a key twice is the same as normalising it once. */
  lemma NormalizeIdempotent(coinType: string)
    ensures NormalizeKey(NormalizeKey(coinType)) == NormalizeKey(coinType)
  {
  }

  /** The value a cache entry stands for when returned. */
  function Cached(entry: Option<CoinMeta>): Lookup {
    match entry
    case Some(m) => Found(m)
    case None => Null
  }

  /** One call: the returned value, the cache afterwards and the key sent
      to the remote service, if a request was made. */
  datatype Resolution = Resolution(result: Lookup, cache: CoinCache, fetched: Option<string>)

  /** The requests one call sent to the remote service: none or one. */
  function Requested(r: Resolution): seq<string> {
    if r.fetched.Some? then [r.fetched.value] else []
  }

  /** `getCoinMetadata(ctx, coinType)` where `outcome` is what the remote
      service would do if asked. */
  function Resolve(cache: CoinCache, coinType: string, outcome: FetchOutcome): (r: Resolution)
    requires Lru.Valid(cache)
    ensures Lru.Valid(r.cache) && r.cache.capacity == cache.capacity
    // a request is made exactly on a miss, for the normalised key
    ensures r.fetched.None? <==> NormalizeKey(coinType) in cache.values
    ensures r.fetched.Some? ==> r.fetched.value == NormalizeKey(coinType)
    // a hit, including a cached null, returns the entry and keeps the contents
    ensures NormalizeKey(coinType) in cache.values ==>
              && r.result == Cached(cache.values[NormalizeKey(coinType)])
              && r.cache.values == cache.values
    // a miss answered with metadata stores and returns it
    ensures NormalizeKey(coinType) !in cache.values && outcome.Ok? ==>
              && r.result == Found(outcome.meta)
              && NormalizeKey(coinType) in r.cache.values
              && r.cache.values[NormalizeKey(coinType)] == Some(outcome.meta)
    // a miss answered with nothing stores nothing and returns undefined
    ensures NormalizeKey(coinType) !in cache.values && outcome.Empty? ==>
              r.result == Undefined && r.cache == cache
    // a miss whose request throws stores null and returns undefined
    ensures NormalizeKey(coinType) !in cache.values && outcome.Throws? ==>
              && r.result == Undefined
              && NormalizeKey(coinType) in r.cache.values
              && r.cache.values[NormalizeKey(coinType)] == None
    // no other key changes, except the least recently used one being evicted
    ensures forall x | x in r.cache.values && x != NormalizeKey(coinType) ::
              x in cache.values && r.cache.values[x] == cache.values[x]
    ensures forall x | x in cache.values && x !in r.cache.values ::
              |cache.order| == cache.capacity && x == cache.order[0]
    // a stored entry ends up the most recently used one
    ensures NormalizeKey(coinType) in r.cache.values ==>
              |r.cache.order| > 0 && r.cache.order[|r.cache.order| - 1] == NormalizeKey(coinType)
  {
    var key := NormalizeKey(coinType);
    if key in cache.values then
      Resolution(Cached(cache.values[key]), Lru.Touch(cache, key), None)
    else
      match outcome
      case Ok(m) => Resolution(Found(m), Lru.Set(cache, key, Some(m)), Some(key))
      case Empty => Resolution(Undefined, cache, Some(key))
      case Throws => Resolution(Undefined, Lru.Set(cache, key, None), Some(key))
  }

  /** The recency order after a call: the other coins keep their relative
      order, except that a miss storing into a full cache drops exactly the
      least recently used one. */
  lemma ResolveKeepsRecency(cache: CoinCache, coinType: string, outcome: FetchOutcome)
    requires Lru.Valid(cache)
    ensures var r := Resolve(cache, coinType, outcome);
            var k := NormalizeKey(coinType);
            && (k in cache.values || |cache.order| < cache.capacity || outcome.Empty? ==>
                  Lru.Remove(r.cache.order, k) == Lru.Remove(cache.order, k))
            && (k !in cache.values && |cache.order| == cache.capacity && !outcome.Empty? ==>
                  Lru.Remove(r.cache.order, k) == cache.order[1..])
  {
  }

  /** Once a key resolved successfully, every later call for it (under
      either spelling of the key) is answered from the cache, whatever the
      remote service would do: at most one successful request per key until
      it is evicted. */
  lemma SuccessIsCached(cache: CoinCache, coinType: string, m: CoinMeta, later: FetchOutcome)
    requires Lru.Valid(cache) && NormalizeKey(coinType) !in cache.values
    ensures var first := Resolve(cache, coinType, Ok(m));
            && first.fetched == Some(NormalizeKey(coinType))
            && Resolve(first.cache, coinType, later).fetched == None
            && Resolve(first.cache, coinType, later).result == Found(m)
            && Resolve(first.cache, NormalizeKey(coinType), later).result == Found(m)
  {
    NormalizeIdempotent(coinType);
  }

  /** A request that throws is not repeated: the first call returns
      undefined, the next returns the cached null without a request. */
  lemma FailureIsCachedAsNull(cache: CoinCache, coinType: string, later: FetchOutcome)
    requires Lru.Valid(cache) && NormalizeKey(coinType) !in cache.values
    ensures var first := Resolve(cache, coinType, Throws);
            && first.result == Undefined
            && Resolve(first.cache, coinType, later).fetched == None
            && Resolve(first.cache, coinType, later).result == Null
  {
  }

  /** An empty answer is not cached, so the next call asks again. */
  lemma EmptyIsRetried(cache: CoinCache, coinType: string, later: FetchOutcome)
    requires Lru.Valid(cache) && NormalizeKey(coinType) !in cache.values
    ensures var first := Resolve(cache, coinType, Empty);
            && first.result == Undefined
            && Resolve(first.cache, coinType, later) == Resolve(cache, coinType, later)
            && Resolve(first.cache, coinType, later).fetched == Some(NormalizeKey(coinType))
  {
  }

  /** On a hit the remote service's behaviour is irrelevant. */
  lemma HitIgnoresRemote(cache: CoinCache, coinType: string, o1: FetchOutcome, o2: FetchOutcome)
    requires Lru.Valid(cache) && NormalizeKey(coinType) in cache.values
    ensures Resolve(cache, coinType, o1) == Resolve(cache, coinType, o2)
  {
  }

  /** A coin type and its `0x`-prefixed spelling share one cache entry. */
  lemma PrefixedSpellingShared(cache: CoinCache, coinType: string, outcome: FetchOutcome)
    requires Lru.Valid(cache)
    ensures Resolve(cache, NormalizeKey(coinType), outcome) == Resolve(cache, coinType, outcome)
  {
    NormalizeIdempotent(coinType);
  }
}

=== FILE: decimals.dfy ===
/** Decimal scaling of raw on-chain quantities. The processor divides a raw
    integer quantity by 10 to the power of an exponent taken from the pool
    record, with `x || 1` choosing the exponent. The model computes over
    exact rationals (`real`), not IEEE doubles. */
module Decimals {
  import opened Optional

  /** 10^n as a real. */
  function Pow10(n: nat): (r: real)
    ensures r >= 1.0
    ensures n > 0 ==> r >= 10.0
  {
    if n == 0 then 1.0 else 10.0 * Pow10(n - 1)
  }

  /** `n` is `raw` divided by 10^d: scaled back up it gives `raw` exactly. */
  predicate Scales(n: real, d: nat, raw: nat) {
    n * Pow10(d) == raw as real
  }

  /** The exponent a handler uses for a decimals value read from the pool
      record, `decimals || 1`: a present non-zero value is used as is, while
      a missing value, `null` and `0` all become 1. */
  function EffDecimals(d: Option<nat>): (r: nat)
    ensures r >= 1
    ensures d.Some? && d.value != 0 ==> r == d.value
    ensures d.None? || d.value == 0 ==> r == 1
  {
    if d.Some? && d.value != 0 then d.value else 1
  }

  /** `raw / 10^d`: the human-readable amount of a raw quantity. */
  function Normalize(raw: nat, d: nat): (n: real)
    ensures Scales(n, d, raw)
    ensures 0.0 <= n <= raw as real
    ensures d > 0 ==> n * 10.0 <= raw as real
  {
    var p := Pow10(d);
    var n := raw as real / p;
    assert n * p == raw as real;
    assert n >= 0.0;
    n
  }

  /** With exponent 0 the quantity would be unchanged; the `|| 1` default
      instead divides an unknown pool's quantities by ten. */
  lemma DefaultExponentDividesByTen(raw: nat)
    ensures Normalize(raw, 0) == raw as real
    ensures Normalize(raw, EffDecimals(None)) * 10.0 == raw as real
    ensures Normalize(raw, EffDecimals(Some(0))) == Normalize(raw, EffDecimals(None))
  {
  }
}

=== FILE: lru.dfy ===
/** A bounded key-value cache with least-recently-used eviction, the
    abstraction of the `LRUCache` instances the processor creates for pool
    records and coin metadata. The cache keeps its keys in recency order
    (least recently used first) next to the key-value contents; a `get`
    of a present key and every `set` move that key to the most recent end,
    and a `set` that would exceed the capacity drops the least recently
    used key. There is no expiry. */
module Lru {
  import opened Optional

  /** No key occurs twice in `s`. */
  predicate Distinct(s: seq<string>) {
    forall i, j | 0 <= i < j < |s| :: s[i] != s[j]
  }

  datatype Cache<V> = Cache(capacity: nat, order: seq<string>, values: map<string, V>)

  /** The recency order lists exactly the stored keys, each once, and never
      more of them than the capacity. */
  predicate Valid<V>(c: Cache<V>) {
    && c.capacity > 0
    && |c.order| <= c.capacity
    && Distinct(c.order)
    && (forall k | k in c.order :: k in c.values)
    && (forall k | k in c.values :: k in c.order)
  }

  /** A fresh cache of the given capacity. */
  function Empty<V>(capacity: nat): (c: Cache<V>)
    requires capacity > 0
    ensures Valid(c)
    ensures c.capacity == capacity
    ensures |c.values| == 0
  {
    Cache(capacity, [], map[])
  }

  /** The value stored under `k`, if any (the value part of `get`). */
  function Get<V>(c: Cache<V>, k: string): Option<V> {
    if k in c.values then Some(c.values[k]) else None
  }

  /** `s` with every occurrence of `k` taken out, the rest in order. */
  function Remove(s: seq<string>, k: string): (r: seq<string>)
    ensures forall x :: x in r <==> x in s && x != k
    ensures Distinct(s) ==> Distinct(r)
    ensures Distinct(s) && k in s ==> |r| == |s| - 1
    ensures k !in s ==> r == s
  {
    if |s| == 0 then []
    else if s[0] == k then Remove(s[1..], k)
    else
      var rest := Remove(s[1..], k);
      assert s == [s[0]] + s[1..];
      assert Distinct(s) ==> s[0] !in s[1..];
      [s[0]] + rest
  }

  /** The recency update a successful `get` performs: a present key becomes
      the most recently used one; the contents do not change. */
  function Touch<V>(c: Cache<V>, k: string): (r: Cache<V>)
    requires Valid(c)
    ensures Valid(r)
    ensures r.capacity == c.capacity && r.values == c.values
    ensures k in c.values ==> |r.order| > 0 && r.order[|r.order| - 1] == k
    ensures k !in c.values ==> r.order == c.order
    // every other key keeps its place relative to the rest
    ensures Remove(r.order, k) == Remove(c.order, k)
  {
    if k in c.values then
      var kept := Remove(c.order, k);
      RemoveAppended(kept, k);
      Cache(c.capacity, kept + [k], c.values)
    else c
  }

  /** `set(k, v)`: stores `v` under `k` as the most recently used key and,
      when a new key arrives in a full cache, evicts the least recently
      used key. Every other key keeps its value. */
  function Set<V>(c: Cache<V>, k: string, v: V): (r: Cache<V>)
    requires Valid(c)
    ensures Valid(r)
    ensures r.capacity == c.capacity
    ensures k in r.values && r.values[k] == v
    ensures |r.order| > 0 && r.order[|r.order| - 1] == k
    ensures k in c.values || |c.order| < c.capacity ==> r.values == c.values[k := v]
    ensures k !in c.values && |c.order| == c.capacity ==>
              c.order[0] != k && r.values == (c.values - {c.order[0]})[k := v]
    // the other keys keep their relative recency order; an eviction drops
    // exactly the front of it
    ensures k in c.values || |c.order| < c.capacity ==> Remove(r.order, k) == Remove(c.order, k)
    ensures k !in c.values && |c.order| == c.capacity ==> Remove(r.order, k) == c.order[1..]
  {
    var kept := Remove(c.order, k);
    var order := kept + [k];
    AppendDistinct(kept, k);
    RemoveAppended(kept, k);
    if |order| > c.capacity then
      assert k !in c.order && kept == c.order;
      var evicted := order[0];
      DropFirstValid(order, (c.values - {evicted})[k := v], c.capacity);
      assert order[1..] == c.order[1..] + [k];
      RemoveAppended(c.order[1..], k);
      Cache(c.capacity, order[1..], (c.values - {evicted})[k := v])
    else
      Cache(c.capacity, order, c.values[k := v])
  }

  /** Dropping the first (least recently used) key of a distinct recency
      order whose keys are exactly the stored ones plus that first key. */
  lemma DropFirstValid<V>(order: seq<string>, values: map<string, V>, capacity: nat)
    requires |order| == capacity + 1 && capacity > 0 && Distinct(order)
    requires forall x | x in order :: x in values || x == order[0]
    requires forall x | x in values :: x in order && x != order[0]
    ensures Valid(Cache(capacity, order[1..], values))
  {
    var rest := order[1..];
    forall x | x in rest
      ensures x in values
    {
      var i :| 0 <= i < |rest| && rest[i] == x;
      assert order[i + 1] == x;
    }
    forall x | x in values
      ensures x in rest
    {
      var i :| 0 <= i < |order| && order[i] == x;
      assert i != 0;
      assert rest[i - 1] == x;
    }
  }

  /** Taking `k` out of a sequence that ends in `k` gives back the prefix
      with `k` taken out. */
  lemma {:induction false} RemoveAppended(s: seq<string>, k: string)
    ensures Remove(s + [k], k) == Remove(s, k)
  {
    if |s| > 0 {
      assert (s + [k])[1..] == s[1..] + [k];
      RemoveAppended(s[1..], k);
    }
  }

  /** Appending a key that is not yet listed keeps the keys distinct. */
  lemma AppendDistinct(s: seq<string>, k: string)
    requires Distinct(s) && k !in s
    ensures Distinct(s + [k])
  {
    var t := s + [k];
    forall i, j | 0 <= i < j < |t|
      ensures t[i] != t[j]
    {
      if j == |s| {
        assert t[i] == s[i];
      }
    }
  }

  /** A sequence without repeats has as many distinct elements as entries. */
  lemma {:induction false} DistinctCard(s: seq<string>)
    requires Distinct(s)
    ensures |set x | x in s| == |s|
  {
    if |s| > 0 {
      var rest := s[1..];
      assert Distinct(rest);
      DistinctCard(rest);
      assert s[0] !in rest;
      assert (set x | x in s) == {s[0]} + (set x | x in rest);
    }
  }

  /** The cache never holds more entries than its capacity. */
  lemma SizeBounded<V>(c: Cache<V>)
    requires Valid(c)
    ensures |c.values| <= c.capacity
  {
    DistinctCard(c.order);
    assert c.values.Keys == set x | x in c.order;
  }

  /** Inserting a new key into a full cache evicts the least recently used
      key, and a later lookup of that key misses. */
  lemma EvictsLeastRecentlyUsed<V>(c: Cache<V>, k: string, v: V)
    requires Valid(c) && k !in c.values && |c.order| == c.capacity
    ensures c.order[0] in c.values
    ensures Get(Set(c, k, v), c.order[0]) == None
    ensures forall x :: x in c.values && x != c.order[0] ==> Get(Set(c, k, v), x) == Get(c, x)
  {
  }
}

=== FILE: optional.dfy ===
/** The optional value used throughout the model: JavaScript's `null`,
    a cache miss, or an absent field are all represented by `None`
    unless the distinction matters, in which case the model says so. */
module Optional {

  datatype Option<+T> = None | Some(value: T)
}

=== FILE: order_events.dfy ===
/** The order-event handlers: each turns one decoded event into one emitted
    record, joining the pool record cached under the event's pool id (all
    kinds but `Fill`) and dividing raw quantities by a power of ten. */
module OrderEvents {
  import opened Optional
  import opened Decimals
  import Lru
  import PoolCreation

  type PoolRecord = PoolCreation.PoolRecord

  /** A JavaScript value read through an optional chain: `undefined` when
      no pool record was found, `null` when the record holds null. */
  datatype Value = Undefined | Null | Str(s: string) | Int(i: int)

  function NullableStr(o: Option<string>): Value {
    match o
    case Some(s) => Str(s)
    case None => Null
  }

  function NullableInt(o: Option<nat>): Value {
    match o
    case Some(n) => Int(n)
    case None => Null
  }

  /** The fields placed, expired, canceled, modified and flash-loan events
      share: who placed which order in which pool, at what price. */
  datatype OrderInfo = OrderInfo(
    balanceManagerId: string, poolId: string, orderId: nat, clientOrderId: nat,
    trader: string, price: nat, isBid: bool)

  /** A maker order's DEEP fee price, passed through as decoded. */
  datatype DeepPrice = DeepPrice(assetIsBase: bool, deepPerAsset: nat)

  /** The decoded payloads of the seven handled event kinds. */
  datatype EventBody =
    | OrderFilled(
        poolId: string, makerOrderId: nat, takerOrderId: nat,
        makerClientOrderId: nat, takerClientOrderId: nat, price: nat,
        takerIsBid: bool, takerFee: nat, takerFeeIsDeep: bool,
        makerFee: nat, makerFeeIsDeep: bool,
        baseQuantity: nat, quoteQuantity: nat,
        makerBalanceManagerId: string, takerBalanceManagerId: string)
    | OrderPlaced(info: OrderInfo, placedQuantity: nat, expireTimestamp: nat)
    | OrderExpired(info: OrderInfo, originalQuantity: nat, baseAssetQuantityCanceled: nat)
    | OrderCanceled(info: OrderInfo, originalQuantity: nat, baseAssetQuantityCanceled: nat)
    | OrderModified(info: OrderInfo, previousQuantity: nat, filledQuantity: nat, newQuantity: nat)
    | FlashLoanBorrowed(poolId: string, borrowQuantity: nat, typeName: string)
    | Fill(
        makerOrderId: nat, makerClientOrderId: nat, executionPrice: nat,
        balanceManagerId: string, expired: bool, completed: bool,
        originalMakerQuantity: nat, baseQuantity: nat, quoteQuantity: nat,
        takerIsBid: bool, makerEpoch: nat, makerDeepPrice: DeepPrice,
        takerFee: nat, takerFeeIsDeep: bool, makerFee: nat, makerFeeIsDeep: bool)

  /** An event as delivered: its payload and the transaction sender. */
  datatype Event = Event(sender: string, body: EventBody)

  /** The pool id a handler looks up; `Fill` does no lookup. */
  function PoolIdOf(body: EventBody): Option<string> {
    if body.OrderFilled? || body.FlashLoanBorrowed? then Some(body.poolId)
    else if body.Fill? then None
    else Some(body.info.poolId)
  }

  /** `poolCache.get(poolId)` over a snapshot of the pool cache's contents. */
  function CachedPool(body: EventBody, pools: map<string, PoolRecord>): Option<PoolRecord> {
    match PoolIdOf(body)
    case Some(id) => if id in pools then Some(pools[id]) else None
    case None => None
  }

  /** The pool fields the placed, expired, canceled, modified and
      flash-loan records carry. */
  datatype PoolFields = PoolFields(
    baseAssetId: Value, baseSymbol: Value, baseDecimals: nat,
    quoteAssetId: Value, quoteSymbol: Value, quoteDecimals: Value,
    takerFee: Value, makerFee: Value)

  /** The emitted records, one kind per handler. Raw quantities are emitted
      unchanged next to their normalised value. */
  datatype Emission =
    | OrderFilledEmitted(
        poolId: string, makerOrderId: nat, takerOrderId: nat,
        makerClientOrderId: nat, takerClientOrderId: nat, price: nat,
        takerIsBid: bool, takerFee: nat, takerFeeIsDeep: bool,
        makerFee: nat, makerFeeIsDeep: bool,
        baseQuantity: nat, quoteQuantity: nat,
        makerBalanceManagerId: string, takerBalanceManagerId: string,
        baseAssetId: Value, baseSymbol: Value, baseDecimals: nat,
        quoteAssetId: Value, quoteSymbol: Value, quoteDecimals: nat,
        poolCreatedAt: Value, poolSender: Value,
        sender: string,
        baseQuantityNormalized: real, quoteQuantityNormalized: real)
    | OrderPlacedEmitted(
        info: OrderInfo, placedQuantity: nat, expireTimestamp: nat,
        pool: PoolFields, sender: string,
        placedQuantityNormalized: real)
    | OrderExpiredEmitted(
        info: OrderInfo, originalQuantity: nat, baseAssetQuantityCanceled: nat,
        pool: PoolFields, sender: string,
        originalQuantityNormalized: real, baseAssetQuantityCanceledNormalized: real)
    | OrderCanceledEmitted(
        info: OrderInfo, originalQuantity: nat, baseAssetQuantityCanceled: nat,
        pool: PoolFields, sender: string,
        originalQuantityNormalized: real, baseAssetQuantityCanceledNormalized: real)
    | OrderModifiedEmitted(
        info: OrderInfo, previousQuantity: nat, filledQuantity: nat, newQuantity: nat,
        pool: PoolFields, sender: string,
        previousQuantityNormalized: real, filledQuantityNormalized: real,
        newQuantityNormalized: real)
    | FlashLoanBorrowedEmitted(
        poolId: string, borrowQuantity: nat, typeName: string,
        pool: PoolFields, sender: string,
        borrowQuantityNormalized: real)
    | FillEmitted(
        makerOrderId: nat, makerClientOrderId: nat, executionPrice: nat,
        balanceManagerId: string, expired: bool, completed: bool,
        originalMakerQuantity: nat, baseQuantity: nat, quoteQuantity: nat,
        takerIsBid: bool, makerEpoch: nat, makerDeepPrice: DeepPrice,
        takerFee: nat, takerFeeIsDeep: bool, makerFee: nat, makerFeeIsDeep: bool,
        sender: string,
        baseQuantityNormalized: real, quoteQuantityNormalized: real)
  {
    /** The records that carry a pool block. */
    predicate HasPool() {
      OrderPlacedEmitted? || OrderExpiredEmitted? || OrderCanceledEmitted?
      || OrderModifiedEmitted? || FlashLoanBorrowedEmitted?
    }

    /** The event name the record is emitted under: that of the kind it
        was built from. */
    function Name(): string {
      EventName(SourceOf(this))
    }
  }

  /** Which decimals a quantity is scaled by: the pool's base decimals, its
      quote decimals, or the fixed exponent 1. */
  datatype Scale = BaseScale | QuoteScale | UnitScale

  /** The exponent a scale stands for, given the cached pool record (if
      any), with the `|| 1` default applied. */
  function Exponent(scale: Scale, pool: Option<PoolRecord>): (d: nat)
    ensures d >= 1
    ensures pool.None? || scale == UnitScale ==> d == 1
  {
    match scale
    case BaseScale => EffDecimals(if pool.Some? then pool.value.baseDecimals else None)
    case QuoteScale => EffDecimals(if pool.Some? then pool.value.quoteDecimals else None)
    case UnitScale => 1
  }

  /** Reference table: the raw quantities each event kind normalises, in
      emission order, with the scale applied to each. */
  function Quantities(body: EventBody): seq<(nat, Scale)> {
    if body.OrderFilled? then [(body.baseQuantity, BaseScale), (body.quoteQuantity, QuoteScale)]
    else if body.Fill? then [(body.baseQuantity, UnitScale), (body.quoteQuantity, UnitScale)]
    else if body.OrderPlaced? then [(body.placedQuantity, BaseScale)]
    else if body.OrderExpired? || body.OrderCanceled? then
      [(body.originalQuantity, BaseScale), (body.baseAssetQuantityCanceled, BaseScale)]
    else if body.OrderModified? then
      [(body.previousQuantity, BaseScale), (body.filledQuantity, BaseScale), (body.newQuantity, BaseScale)]
    else [(body.borrowQuantity, BaseScale)]
  }

  /** The (raw, normalised) field pairs of an emitted record, in order. */
  function NormalizedPairs(e: Emission): seq<(nat, real)> {
    if e.OrderFilledEmitted? || e.FillEmitted? then
      [(e.baseQuantity, e.baseQuantityNormalized), (e.quoteQuantity, e.quoteQuantityNormalized)]
    else if e.OrderPlacedEmitted? then [(e.placedQuantity, e.placedQuantityNormalized)]
    else if e.OrderExpiredEmitted? || e.OrderCanceledEmitted? then
      [(e.originalQuantity, e.originalQuantityNormalized),
       (e.baseAssetQuantityCanceled, e.baseAssetQuantityCanceledNormalized)]
    else if e.OrderModifiedEmitted? then
      [(e.previousQuantity, e.previousQuantityNormalized),
       (e.filledQuantity, e.filledQuantityNormalized),
       (e.newQuantity, e.newQuantityNormalized)]
    else [(e.borrowQuantity, e.borrowQuantityNormalized)]
  }

  /** The decoded payload an emitted record was built from, read back from
      the record's own fields: every field of the payload is emitted
      unchanged under its own name. */
  function SourceOf(e: Emission): EventBody {
    if e.OrderFilledEmitted? then
      OrderFilled(
        e.poolId, e.makerOrderId, e.takerOrderId,
        e.makerClientOrderId, e.takerClientOrderId, e.price,
        e.takerIsBid, e.takerFee, e.takerFeeIsDeep, e.makerFee, e.makerFeeIsDeep,
        e.baseQuantity, e.quoteQuantity,
        e.makerBalanceManagerId, e.takerBalanceManagerId)
    else if e.OrderPlacedEmitted? then OrderPlaced(e.info, e.placedQuantity, e.expireTimestamp)
    else if e.OrderExpiredEmitted? then
      OrderExpired(e.info, e.originalQuantity, e.baseAssetQuantityCanceled)
    else if e.OrderCanceledEmitted? then
      OrderCanceled(e.info, e.originalQuantity, e.baseAssetQuantityCanceled)
    else if e.OrderModifiedEmitted? then
      OrderModified(e.info, e.previousQuantity, e.filledQuantity, e.newQuantity)
    else if e.FlashLoanBorrowedEmitted? then FlashLoanBorrowed(e.poolId, e.borrowQuantity, e.typeName)
    else
      Fill(
        e.makerOrderId, e.makerClientOrderId, e.executionPrice,
        e.balanceManagerId, e.expired, e.completed,
        e.originalMakerQuantity, e.baseQuantity, e.quoteQuantity,
        e.takerIsBid, e.makerEpoch, e.makerDeepPrice,
        e.takerFee, e.takerFeeIsDeep, e.makerFee, e.makerFeeIsDeep)
  }

  /** The pool block of a placed, expired, canceled, modified or
      flash-loan record: `cachedPool?.x` for each field, `base_decimals`
      defaulted with `|| 1` and `quote_decimals` emitted as stored. */
  function PoolFieldsFor(pool: Option<PoolRecord>): (f: PoolFields)
    ensures f.baseDecimals == Exponent(BaseScale, pool)
    ensures pool.None? ==>
              && f.baseAssetId == Undefined && f.baseSymbol == Undefined
              && f.quoteAssetId == Undefined && f.quoteSymbol == Undefined
              && f.quoteDecimals == Undefined
              && f.takerFee == Undefined && f.makerFee == Undefined
    ensures pool.Some? ==>
              && f.baseAssetId == Str(pool.value.baseAssetId)
              && f.baseSymbol == NullableStr(pool.value.baseSymbol)
              && f.quoteAssetId == Str(pool.value.quoteAssetId)
              && f.quoteSymbol == NullableStr(pool.value.quoteSymbol)
              && f.quoteDecimals == NullableInt(pool.value.quoteDecimals)
              && f.takerFee == Int(pool.value.takerFee)
              && f.makerFee == Int(pool.value.makerFee)
  {
    match pool
    case Some(rec) =>
      PoolFields(
        Str(rec.baseAssetId), NullableStr(rec.baseSymbol), EffDecimals(rec.baseDecimals),
        Str(rec.quoteAssetId), NullableStr(rec.quoteSymbol), NullableInt(rec.quoteDecimals),
        Int(rec.takerFee), Int(rec.makerFee))
    case None =>
      PoolFields(Undefined, Undefined, 1, Undefined, Undefined, Undefined, Undefined, Undefined)
  }

  /** The order-filled handler: ids and symbols joined from the cached
      record, both decimals defaulted with `|| 1` and emitted defaulted,
      fees taken from the event itself, and no pool creation time or
      sender, since the record holds neither. */
  function OrderFilledRecord(sender: string, body: EventBody, pool: Option<PoolRecord>): (e: Emission)
    requires body.OrderFilled?
    ensures e.OrderFilledEmitted? && e.sender == sender
    // every decoded field is emitted unchanged, the fees among them
    ensures SourceOf(e) == body
    ensures pool.None? ==>
              && e.baseAssetId == Undefined && e.baseSymbol == Undefined
              && e.quoteAssetId == Undefined && e.quoteSymbol == Undefined
    ensures pool.Some? ==>
              && e.baseAssetId == Str(pool.value.baseAssetId)
              && e.baseSymbol == NullableStr(pool.value.baseSymbol)
              && e.quoteAssetId == Str(pool.value.quoteAssetId)
              && e.quoteSymbol == NullableStr(pool.value.quoteSymbol)
    ensures e.baseDecimals == Exponent(BaseScale, pool)
    ensures e.quoteDecimals == Exponent(QuoteScale, pool)
    ensures e.poolCreatedAt == Undefined && e.poolSender == Undefined
    // base and quote are each scaled by their own emitted decimals
    ensures Scales(e.baseQuantityNormalized, e.baseDecimals, e.baseQuantity)
    ensures Scales(e.quoteQuantityNormalized, e.quoteDecimals, e.quoteQuantity)
  {
    var base := Exponent(BaseScale, pool);
    var quote := Exponent(QuoteScale, pool);
    var joined := PoolFieldsFor(pool);
    OrderFilledEmitted(
      body.poolId, body.makerOrderId, body.takerOrderId,
      body.makerClientOrderId, body.takerClientOrderId, body.price,
      body.takerIsBid, body.takerFee, body.takerFeeIsDeep, body.makerFee, body.makerFeeIsDeep,
      body.baseQuantity, body.quoteQuantity,
      body.makerBalanceManagerId, body.takerBalanceManagerId,
      joined.baseAssetId, joined.baseSymbol, base,
      joined.quoteAssetId, joined.quoteSymbol, quote,
      Undefined, Undefined,
      sender,
      Normalize(body.baseQuantity, base), Normalize(body.quoteQuantity, quote))
  }

  /** The placed, expired, canceled, modified and flash-loan handlers: the
      event's fields, the pool block, and every quantity of the kind
      divided by 10 to the (defaulted) base decimals. */
  function PoolScopedRecord(sender: string, body: EventBody, pool: Option<PoolRecord>): (e: Emission)
    requires HasPoolBlock(body)
    ensures e.Name() == EventName(body) && e.sender == sender
    ensures e.HasPool() && e.pool == PoolFieldsFor(pool)
    ensures SourceOf(e) == body
  {
    var joined := PoolFieldsFor(pool);
    var d := joined.baseDecimals;
    match body
    case OrderPlaced(info, placed, expire) =>
      OrderPlacedEmitted(info, placed, expire, joined, sender, Normalize(placed, d))
    case OrderExpired(info, original, canceled) =>
      OrderExpiredEmitted(info, original, canceled, joined, sender,
        Normalize(original, d), Normalize(canceled, d))
    case OrderCanceled(info, original, canceled) =>
      OrderCanceledEmitted(info, original, canceled, joined, sender,
        Normalize(original, d), Normalize(canceled, d))
    case OrderModified(info, previous, filled, next) =>
      OrderModifiedEmitted(info, previous, filled, next, joined, sender,
        Normalize(previous, d), Normalize(filled, d), Normalize(next, d))
    case FlashLoanBorrowed(poolId, borrow, typeName) =>
      FlashLoanBorrowedEmitted(poolId, borrow, typeName, joined, sender, Normalize(borrow, d))
  }

  /** The fill handler: no pool lookup, a fixed exponent of 1 for both
      quantities. */
  function FillRecord(sender: string, body: EventBody): (e: Emission)
    requires body.Fill?
    ensures e.FillEmitted? && e.sender == sender
    ensures SourceOf(e) == body
    ensures e.baseQuantityNormalized * 10.0 == e.baseQuantity as real
    ensures e.quoteQuantityNormalized * 10.0 == e.quoteQuantity as real
  {
    FillEmitted(
      body.makerOrderId, body.makerClientOrderId, body.executionPrice,
      body.balanceManagerId, body.expired, body.completed,
      body.originalMakerQuantity, body.baseQuantity, body.quoteQuantity,
      body.takerIsBid, body.makerEpoch, body.makerDeepPrice,
      body.takerFee, body.takerFeeIsDeep, body.makerFee, body.makerFeeIsDeep,
      sender,
      Normalize(body.baseQuantity, 1), Normalize(body.quoteQuantity, 1))
  }

  /** The record a handler emits for `ev`, given the pool cache's contents. */
  function Enrich(ev: Event, pools: map<string, PoolRecord>): (e: Emission)
    ensures e.Name() == EventName(ev.body)
    ensures e.sender == ev.sender
    // nothing of the decoded payload is dropped, altered or swapped
    ensures SourceOf(e) == ev.body
    ensures HasPoolBlock(ev.body) <==> e.HasPool()
    ensures HasPoolBlock(ev.body) ==> e.pool == PoolFieldsFor(CachedPool(ev.body, pools))
  {
    var pool := CachedPool(ev.body, pools);
    if ev.body.OrderFilled? then OrderFilledRecord(ev.sender, ev.body, pool)
    else if ev.body.Fill? then FillRecord(ev.sender, ev.body)
    else PoolScopedRecord(ev.sender, ev.body, pool)
  }

  /** The kinds whose record has a pool block. */
  predicate HasPoolBlock(body: EventBody) {
    body.OrderPlaced? || body.OrderExpired? || body.OrderCanceled?
    || body.OrderModified? || body.FlashLoanBorrowed?
  }

  /** The event name each kind is emitted under. */
  function EventName(body: EventBody): string {
    if body.OrderFilled? then "deepbook_order_filled"
    else if body.OrderPlaced? then "deepbook_order_placed"
    else if body.OrderExpired? then "deepbook_order_expired"
    else if body.OrderCanceled? then "deepbook_order_canceled"
    else if body.OrderModified? then "deepbook_order_modified"
    else if body.FlashLoanBorrowed? then "deepbook_flash_loan_borrowed"
    else "deepbook_fill"
  }

  /** The reference table with every quantity paired with its value
      divided by 10 to the exponent of its scale. */
  function Scaled(body: EventBody, pool: Option<PoolRecord>): (r: seq<(nat, real)>)
    ensures |r| == |Quantities(body)|
    ensures forall i | 0 <= i < |r| ::
              && r[i].0 == Quantities(body)[i].0
              && Scales(r[i].1, Exponent(Quantities(body)[i].1, pool), r[i].0)
  {
    var qs := Quantities(body);
    seq(|qs|, i requires 0 <= i < |qs| => (qs[i].0, Normalize(qs[i].0, Exponent(qs[i].1, pool))))
  }

  /** Per-kind quantity selection and the scaling identity: the record
      emits exactly the quantities the reference table lists for the
      event's kind, in order, each raw and divided by 10 to the exponent of
      its scale. */
  lemma NormalizedQuantities(ev: Event, pools: map<string, PoolRecord>)
    ensures NormalizedPairs(Enrich(ev, pools)) == Scaled(ev.body, CachedPool(ev.body, pools))
  {
    var e := Enrich(ev, pools);
    var pool := CachedPool(ev.body, pools);
    var s := Scaled(ev.body, pool);
    var qs := Quantities(ev.body);
    assert |NormalizedPairs(e)| == |s|;
    forall i | 0 <= i < |s|
      ensures NormalizedPairs(e)[i] == s[i]
    {
      assert s[i] == (qs[i].0, Normalize(qs[i].0, Exponent(qs[i].1, pool)));
    }
  }

  /** Joining the pool cache: the record is emitted whether or not the
      pool is cached, with its whole payload, and its base decimals are the
      cached record's after the `|| 1` default (1 on a miss). */
  lemma PoolJoin(ev: Event, pools: map<string, PoolRecord>)
    requires HasPoolBlock(ev.body)
    ensures var e := Enrich(ev, pools);
            var pool := CachedPool(ev.body, pools);
            && e.HasPool() && SourceOf(e) == ev.body
            && e.pool.baseDecimals == EffDecimals(if pool.Some? then pool.value.baseDecimals else None)
  {
  }

  /** A placed order on a cached pool carries that pool's fee and its
      quantity scaled by the pool's base decimals. */
  lemma PlacedOnCachedPool(ev: Event, pools: map<string, PoolRecord>)
    requires ev.body.OrderPlaced? && ev.body.info.poolId in pools
    ensures var e := Enrich(ev, pools);
            var rec := pools[ev.body.info.poolId];
            && e.OrderPlacedEmitted?
            && e.pool.baseDecimals == EffDecimals(rec.baseDecimals)
            && e.pool.takerFee == Int(rec.takerFee)
            && e.placedQuantityNormalized == Normalize(ev.body.placedQuantity, EffDecimals(rec.baseDecimals))
  {
  }

  /** The five kinds with a pool block scale every quantity by the base
      decimals they emit, so the emitted decimals account for each
      normalised value. */
  lemma PoolBlockScaling(ev: Event, pools: map<string, PoolRecord>)
    requires HasPoolBlock(ev.body)
    ensures var e := Enrich(ev, pools);
            forall i | 0 <= i < |NormalizedPairs(e)| ::
              Scales(NormalizedPairs(e)[i].1, e.pool.baseDecimals, NormalizedPairs(e)[i].0)
  {
    NormalizedQuantities(ev, pools);
    var e := Enrich(ev, pools);
    var pool := CachedPool(ev.body, pools);
    var qs := Quantities(ev.body);
    var sc := Scaled(ev.body, pool);
    assert e.pool.baseDecimals == Exponent(BaseScale, pool);
    forall i | 0 <= i < |NormalizedPairs(e)|
      ensures Scales(NormalizedPairs(e)[i].1, e.pool.baseDecimals, NormalizedPairs(e)[i].0)
    {
      assert NormalizedPairs(e)[i] == sc[i];
      assert qs[i].1 == BaseScale;
    }
  }

  /** The fill handler never reads the pool cache. */
  lemma FillIgnoresPoolCache(ev: Event, pools1: map<string, PoolRecord>, pools2: map<string, PoolRecord>)
    requires ev.body.Fill?
    ensures Enrich(ev, pools1) == Enrich(ev, pools2)
    ensures Enrich(ev, pools1).baseQuantityNormalized * 10.0 == ev.body.baseQuantity as real
  {
  }

  /** The result of one order-event handler: the state after its
      `poolCache.get` and the emitted record. */
  datatype Handled = Handled(state: PoolCreation.State, emission: Emission)

  /** An order-event handler run against the processor state. The lookup
      only refreshes the pool's recency; the contents of both caches stay
      as they were, and a miss is not an error. */
  function HandleOrderEvent(s: PoolCreation.State, ev: Event): (r: Handled)
    requires PoolCreation.Valid(s)
    ensures PoolCreation.Valid(r.state)
    ensures r.state.pools.values == s.pools.values && r.state.coins == s.coins
    ensures r.emission == Enrich(ev, s.pools.values)
    ensures PoolIdOf(ev.body).None? ==> r.state == s
    ensures PoolIdOf(ev.body).Some? && PoolIdOf(ev.body).value in s.pools.values ==>
              r.state.pools.order[|r.state.pools.order| - 1] == PoolIdOf(ev.body).value
    // the other pools keep their relative recency order
    ensures PoolIdOf(ev.body).Some? ==>
              Lru.Remove(r.state.pools.order, PoolIdOf(ev.body).value)
                == Lru.Remove(s.pools.order, PoolIdOf(ev.body).value)
  {
    var emission := Enrich(ev, s.pools.values);
    match PoolIdOf(ev.body)
    case Some(id) => Handled(s.(pools := Lru.Touch(s.pools, id)), emission)
    case None => Handled(s, emission)
  }
}

=== FILE: pipeline.dfy ===
/** The processor as a whole: pool-created and order events handled one at
    a time against the two shared caches, each handler finishing before
    the next event is taken. */
module Pipeline {
  import opened Optional
  import opened Decimals
  import CoinMetadata
  import PoolCreation
  import OrderEvents

  /** One delivered event. For a pool-created event the input also carries
      what the remote metadata service would do for its base and quote
      coins. */
  datatype Input =
    | PoolCreatedInput(created: PoolCreation.PoolCreated,
                       baseOutcome: CoinMetadata.FetchOutcome,
                       quoteOutcome: CoinMetadata.FetchOutcome)
    | OrderInput(event: OrderEvents.Event)

  datatype Output =
    | PoolCreatedOutput(created: PoolCreation.CreatedEmission)
    | OrderOutput(order: OrderEvents.Emission)

  /** The state after some inputs, the records emitted, in order, and the
      keys sent to the remote metadata service, in order. */
  datatype Trace = Trace(state: PoolCreation.State, outputs: seq<Output>, fetched: seq<string>)

  /** How many pool-created events `inputs` holds. */
  function Creations(inputs: seq<Input>): (n: nat)
    ensures n <= |inputs|
  {
    if |inputs| == 0 then 0
    else (if inputs[0].PoolCreatedInput? then 1 else 0) + Creations(inputs[1..])
  }

  /** Handling one input. */
  function Step(s: PoolCreation.State, input: Input): (r: Trace)
    requires PoolCreation.Valid(s)
    ensures PoolCreation.Valid(r.state)
    ensures |r.outputs| <= 1
    ensures input.PoolCreatedInput? ==> |r.fetched| <= 2
    // order events emit exactly one record, call no remote service and
    // change neither cache's contents
    ensures input.OrderInput? ==>
              && r.outputs == [OrderOutput(OrderEvents.Enrich(input.event, s.pools.values))]
              && r.fetched == []
              && r.state.pools.values == s.pools.values && r.state.coins == s.coins
  {
    match input
    case PoolCreatedInput(created, b, q) =>
      var o := PoolCreation.OnPoolCreated(s, created, b, q);
      if o.Created? then Trace(o.state, [PoolCreatedOutput(o.emission)], o.fetched)
      else Trace(o.state, [], o.fetched)
    case OrderInput(ev) =>
      var h := OrderEvents.HandleOrderEvent(s, ev);
      Trace(h.state, [OrderOutput(h.emission)], [])
  }

  /** Handling `inputs` in order from state `s`. */
  function Process(s: PoolCreation.State, inputs: seq<Input>): (r: Trace)
    requires PoolCreation.Valid(s)
    ensures PoolCreation.Valid(r.state)
    ensures |r.outputs| <= |inputs|
    // at most two remote requests per pool-created event, none otherwise
    ensures |r.fetched| <= 2 * Creations(inputs)
    // without pool-created events the cache contents never change and
    // every event emits a record
    ensures Creations(inputs) == 0 ==>
              && r.state.pools.values == s.pools.values && r.state.coins == s.coins
              && |r.outputs| == |inputs|
    decreases |inputs|
  {
    if |inputs| == 0 then Trace(s, [], [])
    else
      var first := Step(s, inputs[0]);
      var rest := Process(first.state, inputs[1..]);
      Trace(rest.state, first.outputs + rest.outputs, first.fetched + rest.fetched)
  }

  /** A pool-created event runs the pool-created handler: the state and the
      requests are the handler's, and its record is emitted when the pool
      was created and nothing when the handler threw. */
  lemma StepCreatesPool(s: PoolCreation.State, c: PoolCreation.PoolCreated,
                        b: CoinMetadata.FetchOutcome, q: CoinMetadata.FetchOutcome)
    requires PoolCreation.Valid(s)
    ensures var r := Step(s, PoolCreatedInput(c, b, q));
            var o := PoolCreation.OnPoolCreated(s, c, b, q);
            && r.state == o.state && r.fetched == o.fetched
            && r.outputs == (if o.Created? then [PoolCreatedOutput(o.emission)] else [])
  {
  }

  /** An order event runs its order-event handler: the state after it is
      the handler's, including the pool's refreshed recency. */
  lemma StepHandlesOrder(s: PoolCreation.State, ev: OrderEvents.Event)
    requires PoolCreation.Valid(s)
    ensures Step(s, OrderInput(ev)).state == OrderEvents.HandleOrderEvent(s, ev).state
  {
  }

  /** A stream of order events emits, in order, one record per event, each
      the enrichment of that event against the pool cache's contents at the
      start (which order events do not change). */
  lemma {:induction false} OrderStreamOutputs(s: PoolCreation.State, inputs: seq<Input>)
    requires PoolCreation.Valid(s)
    requires forall i | 0 <= i < |inputs| :: inputs[i].OrderInput?
    ensures Process(s, inputs).outputs
              == seq(|inputs|, i requires 0 <= i < |inputs| =>
                   OrderOutput(OrderEvents.Enrich(inputs[i].event, s.pools.values)))
    decreases |inputs|
  {
    if |inputs| > 0 {
      OrderStreamOutputs(Step(s, inputs[0]).state, inputs[1..]);
    }
  }

  /** After a pool-created event, any run of order events leaves the
      pool's record in the pool cache. */
  lemma CreatedPoolSurvivesOrders(s: PoolCreation.State, c: PoolCreation.PoolCreated,
                                  b: CoinMetadata.FetchOutcome, q: CoinMetadata.FetchOutcome,
                                  between: seq<Input>)
    requires PoolCreation.Valid(s) && |c.typeArguments| >= 2
    requires Creations(between) == 0
    ensures var created := PoolCreation.OnPoolCreated(s, c, b, q);
            var pools := Process(s, [PoolCreatedInput(c, b, q)] + between).state.pools.values;
            c.poolId in pools && pools[c.poolId] == created.record
  {
    assert ([PoolCreatedInput(c, b, q)] + between)[1..] == between;
    StepCreatesPool(s, c, b, q);
  }

  /** After a pool-created event and any run of order events, an order
      event for that pool emits a record joining the fees, base asset id
      and base decimals stored at creation. */
  lemma CreatedPoolJoinedLater(s: PoolCreation.State, c: PoolCreation.PoolCreated,
                               b: CoinMetadata.FetchOutcome, q: CoinMetadata.FetchOutcome,
                               between: seq<Input>, ev: OrderEvents.Event)
    requires PoolCreation.Valid(s) && |c.typeArguments| >= 2
    requires Creations(between) == 0
    requires OrderEvents.HasPoolBlock(ev.body) && OrderEvents.PoolIdOf(ev.body) == Some(c.poolId)
    ensures var created := PoolCreation.OnPoolCreated(s, c, b, q);
            var t := Process(s, [PoolCreatedInput(c, b, q)] + between);
            var out := Step(t.state, OrderInput(ev)).outputs;
            && |out| == 1 && out[0].OrderOutput?
            && out[0].order.pool.takerFee == OrderEvents.Int(c.takerFee)
            && out[0].order.pool.makerFee == OrderEvents.Int(c.makerFee)
            && out[0].order.pool.baseAssetId == OrderEvents.Str(c.typeArguments[0])
            && out[0].order.pool.baseDecimals == EffDecimals(created.record.baseDecimals)
  {
    CreatedPoolSurvivesOrders(s, c, b, q, between);
  }

  /** Order events for a pool never created are still emitted, with every
      joined field undefined and base decimals 1. */
  lemma UnknownPoolDegrades(s: PoolCreation.State, ev: OrderEvents.Event)
    requires PoolCreation.Valid(s) && OrderEvents.HasPoolBlock(ev.body)
    requires OrderEvents.PoolIdOf(ev.body).value !in s.pools.values
    ensures var r := Step(s, OrderInput(ev));
            && |r.outputs| == 1
            && r.outputs[0].order.pool.baseDecimals == 1
            && r.outputs[0].order.pool.baseSymbol == OrderEvents.Undefined
            && r.outputs[0].order.pool.takerFee == OrderEvents.Undefined
  {
  }

  /** 10^6, the scale of a coin with six decimals. */
  lemma Pow10Six()
    ensures Pow10(6) == 1000000.0
  {
    assert Pow10(1) == 10.0;
    assert Pow10(2) == 100.0;
    assert Pow10(3) == 1000.0;
    assert Pow10(4) == 10000.0;
    assert Pow10(5) == 100000.0;
  }

  /** The pool-created event of the first worked example. */
  const ExamplePool := PoolCreation.PoolCreated(
    "P1", ["0x2::base::BASE", "0x2::quote::QUOTE"], 1000000, 500000, 1, 1, 1,
    false, "0xtreasury", "0xsender")

  /** Worked example, first half: creating the pool from a fresh state,
      with base metadata of 6 decimals, stores a record with those
      decimals and the event's taker fee under the pool id. */
  lemma ExamplePoolStored()
    ensures var created := PoolCreation.OnPoolCreated(
              PoolCreation.Init(), ExamplePool,
              CoinMetadata.Ok(CoinMetadata.CoinMeta("BASE", 6)),
              CoinMetadata.Ok(CoinMetadata.CoinMeta("QUOTE", 9)));
            && "P1" in created.state.pools.values
            && created.state.pools.values["P1"].baseDecimals == Some(6)
            && created.state.pools.values["P1"].takerFee == 1000000
  {
    PoolCreation.BaseMetadataSource(
      PoolCreation.Init(), ExamplePool,
      CoinMetadata.Ok(CoinMetadata.CoinMeta("BASE", 6)),
      CoinMetadata.Ok(CoinMetadata.CoinMeta("QUOTE", 9)));
  }

  /** Worked example: a pool whose base coin has 6 decimals and quote coin
      9, then an order placed for 5,000,000 raw units: the record reports
      base decimals 6, the pool's taker fee, and 5.0 placed. */
  lemma ExamplePlacedOrder()
    ensures var created := PoolCreation.OnPoolCreated(
              PoolCreation.Init(), ExamplePool,
              CoinMetadata.Ok(CoinMetadata.CoinMeta("BASE", 6)),
              CoinMetadata.Ok(CoinMetadata.CoinMeta("QUOTE", 9)));
            var info := OrderEvents.OrderInfo("0xmanager", "P1", 7, 8, "0xtrader", 100, true);
            var ev := OrderEvents.Event("0xsender", OrderEvents.OrderPlaced(info, 5000000, 0));
            var e := OrderEvents.Enrich(ev, created.state.pools.values);
            && e.OrderPlacedEmitted?
            && e.pool.baseDecimals == 6
            && e.pool.takerFee == OrderEvents.Int(1000000)
            && e.placedQuantityNormalized == 5.0
  {
    ExamplePoolStored();
    var created := PoolCreation.OnPoolCreated(
      PoolCreation.Init(), ExamplePool,
      CoinMetadata.Ok(CoinMetadata.CoinMeta("BASE", 6)),
      CoinMetadata.Ok(CoinMetadata.CoinMeta("QUOTE", 9)));
    var info := OrderEvents.OrderInfo("0xmanager", "P1", 7, 8, "0xtrader", 100, true);
    OrderEvents.PlacedOnCachedPool(OrderEvents.Event("0xsender", OrderEvents.OrderPlaced(info, 5000000, 0)),
      created.state.pools.values);
    Pow10Six();
  }

  /** Worked example: an order filled in an unknown pool with a base
      quantity of 123,456 reports base decimals 1 and a normalised base
      quantity of 12,345.6 (the default exponent 1 divides by ten). */
  lemma ExampleUnknownPoolFill()
    ensures var body := OrderEvents.OrderFilled(
              "P2", 1, 2, 3, 4, 100, true, 10, false, 5, false, 123456, 999,
              "0xmaker", "0xtaker");
            var e := OrderEvents.Enrich(OrderEvents.Event("0xsender", body), map[]);
            && e.baseDecimals == 1
            && e.baseSymbol == OrderEvents.Undefined
            && e.baseQuantityNormalized == 12345.6
  {
  }
}

=== FILE: pool_creation.dfy ===
/** The pool-creation handler: it resolves the metadata of the pool's base
    and quote coins, builds the pool record, stores it in the shared pool
    cache under the pool id (replacing any earlier record) and emits a
    `deepbook_pool_created` record. */
module PoolCreation {
  import opened Optional
  import Lru
  import CoinMetadata

  /** The decoded `PoolCreated` event. `typeArguments` are the event's type
      arguments: the base coin type, then the quote coin type. */
  datatype PoolCreated = PoolCreated(
    poolId: string,
    typeArguments: seq<string>,
    takerFee: nat,
    makerFee: nat,
    tickSize: nat,
    lotSize: nat,
    minSize: nat,
    whitelistedPool: bool,
    treasuryAddress: string,
    sender: string)

  /** What the pool cache holds per pool. Symbols and decimals are `None`
      (`null`) when the coin's metadata did not resolve. The record has no
      creation time and no sender. */
  datatype PoolRecord = PoolRecord(
    baseAssetId: string,
    baseSymbol: Option<string>,
    baseDecimals: Option<nat>,
    quoteAssetId: string,
    quoteSymbol: Option<string>,
    quoteDecimals: Option<nat>,
    takerFee: nat,
    makerFee: nat,
    tickSize: nat,
    lotSize: nat,
    minSize: nat,
    whitelistedPool: bool,
    treasuryAddress: string)

  /** The pool cache holds at most 100,000 records. */
  const PoolCapacity: nat := 100_000

  /** The processor's shared state: the pool cache and the coin cache. */
  datatype State = State(pools: Lru.Cache<PoolRecord>, coins: CoinMetadata.CoinCache)

  predicate Valid(s: State) {
    && Lru.Valid(s.pools) && s.pools.capacity == PoolCapacity
    && Lru.Valid(s.coins) && s.coins.capacity == CoinMetadata.Capacity
  }

  /** Both caches empty, as at start-up. */
  function Init(): (s: State)
    ensures Valid(s)
    ensures |s.pools.values| == 0 && |s.coins.values| == 0
  {
    State(Lru.Empty(PoolCapacity), Lru.Empty(CoinMetadata.Capacity))
  }

  /** Neither cache can outgrow its bound. */
  lemma CachesBounded(s: State)
    requires Valid(s)
    ensures |s.pools.values| <= 100_000
    ensures |s.coins.values| <= 10_000
  {
    Lru.SizeBounded(s.pools);
    Lru.SizeBounded(s.coins);
  }

  /** `meta?.symbol ?? null` */
  function SymbolOf(m: CoinMetadata.Lookup): Option<string> {
    if m.Found? then Some(m.meta.symbol) else None
  }

  /** `meta?.decimals ?? null`; a decimals value of 0 is kept. */
  function DecimalsOf(m: CoinMetadata.Lookup): Option<nat> {
    if m.Found? then Some(m.meta.decimals) else None
  }

  /** The handler's effect. `Rejected` is the handler throwing: with fewer
      than two type arguments a coin type is `undefined` and the resolver
      fails on it before anything is stored in the pool cache. `fetched`
      lists the keys sent to the remote metadata service, in order. */
  datatype Outcome =
    | Created(state: State, record: PoolRecord, emission: CreatedEmission, fetched: seq<string>)
    | Rejected(state: State, fetched: seq<string>)

  /** The `deepbook_pool_created` record: the pool id, the pool record's
      fields spread in, and the event sender. */
  datatype CreatedEmission = CreatedEmission(poolId: string, record: PoolRecord, sender: string)

  /** `onEventPoolCreated`: `baseOutcome` and `quoteOutcome` are what the
      remote service would do for the base and the quote coin; they matter
      only on a coin-cache miss. The two resolutions run one after the
      other, the second against the coin cache the first left behind. */
  function OnPoolCreated(s: State, ev: PoolCreated,
                         baseOutcome: CoinMetadata.FetchOutcome,
                         quoteOutcome: CoinMetadata.FetchOutcome): (r: Outcome)
    requires Valid(s)
    ensures Valid(r.state)
    ensures r.Created? <==> |ev.typeArguments| >= 2
    ensures |r.fetched| <= 2
    // the record: asset ids from the type arguments as given, configuration
    // copied from the event
    ensures r.Created? ==>
              && r.record.baseAssetId == ev.typeArguments[0]
              && r.record.quoteAssetId == ev.typeArguments[1]
              && r.record.takerFee == ev.takerFee && r.record.makerFee == ev.makerFee
              && r.record.tickSize == ev.tickSize && r.record.lotSize == ev.lotSize
              && r.record.minSize == ev.minSize
              && r.record.whitelistedPool == ev.whitelistedPool
              && r.record.treasuryAddress == ev.treasuryAddress
    // after the handler the pool id maps to exactly this record
    ensures r.Created? ==>
              ev.poolId in r.state.pools.values && r.state.pools.values[ev.poolId] == r.record
    // the pool cache is updated by one `set`, so the recency and eviction
    // guarantees of `Lru.Set` apply: another record is dropped only when a
    // new pool id arrives in a full cache, and then only the least
    // recently used one
    ensures r.Created? ==> r.state.pools == Lru.Set(s.pools, ev.poolId, r.record)
    ensures r.Created? ==>
              r.emission.poolId == ev.poolId && r.emission.record == r.record && r.emission.sender == ev.sender
    // a throwing handler stores nothing in the pool cache
    ensures r.Rejected? ==> r.state.pools == s.pools
    ensures |ev.typeArguments| == 0 ==> r.state == s && r.fetched == []
    // the coin cache is threaded through the base resolution, then the
    // quote resolution; the record's metadata fields are what they return
    ensures |ev.typeArguments| >= 1 ==>
              var base := CoinMetadata.Resolve(s.coins, ev.typeArguments[0], baseOutcome);
              && (r.Rejected? ==> r.state.coins == base.cache)
              && (r.Created? ==>
                    var quote := CoinMetadata.Resolve(base.cache, ev.typeArguments[1], quoteOutcome);
                    && r.state.coins == quote.cache
                    && r.record.baseSymbol == SymbolOf(base.result)
                    && r.record.baseDecimals == DecimalsOf(base.result)
                    && r.record.quoteSymbol == SymbolOf(quote.result)
                    && r.record.quoteDecimals == DecimalsOf(quote.result))
  {
    if |ev.typeArguments| == 0 then
      Rejected(s, [])
    else
      var baseAssetId := ev.typeArguments[0];
      var base := CoinMetadata.Resolve(s.coins, baseAssetId, baseOutcome);
      if |ev.typeArguments| == 1 then
        Rejected(s.(coins := base.cache), CoinMetadata.Requested(base))
      else
        var quoteAssetId := ev.typeArguments[1];
        var quote := CoinMetadata.Resolve(base.cache, quoteAssetId, quoteOutcome);
        var rec := PoolRecord(
          baseAssetId, SymbolOf(base.result), DecimalsOf(base.result),
          quoteAssetId, SymbolOf(quote.result), DecimalsOf(quote.result),
          ev.takerFee, ev.makerFee, ev.tickSize, ev.lotSize, ev.minSize,
          ev.whitelistedPool, ev.treasuryAddress);
        var pools := Lru.Set(s.pools, ev.poolId, rec);
        Created(State(pools, quote.cache), rec, CreatedEmission(ev.poolId, rec, ev.sender), CoinMetadata.Requested(base) + CoinMetadata.Requested(quote))
  }

  /** Where the record's base symbol and decimals come from: metadata
      already cached for the base coin is used whatever the remote service
      would do; a cached failure gives nulls; on a miss a successful request
      supplies them and an empty or throwing one gives nulls. */
  lemma BaseMetadataSource(s: State, ev: PoolCreated,
                           baseOutcome: CoinMetadata.FetchOutcome,
                           quoteOutcome: CoinMetadata.FetchOutcome)
    requires Valid(s) && |ev.typeArguments| >= 2
    ensures var r := OnPoolCreated(s, ev, baseOutcome, quoteOutcome);
            var key := CoinMetadata.NormalizeKey(ev.typeArguments[0]);
            && (key in s.coins.values && s.coins.values[key].Some? ==>
                  && r.record.baseSymbol == Some(s.coins.values[key].value.symbol)
                  && r.record.baseDecimals == Some(s.coins.values[key].value.decimals))
            && (key in s.coins.values && s.coins.values[key].None? ==>
                  r.record.baseSymbol == None && r.record.baseDecimals == None)
            && (key !in s.coins.values && baseOutcome.Ok? ==>
                  && r.record.baseSymbol == Some(baseOutcome.meta.symbol)
                  && r.record.baseDecimals == Some(baseOutcome.meta.decimals))
            && (key !in s.coins.values && !baseOutcome.Ok? ==>
                  r.record.baseSymbol == None && r.record.baseDecimals == None)
  {
  }

  /** Where the record's quote symbol and decimals come from, in terms of
      the coin cache the base resolution left behind (which already holds
      the base coin's entry when both coins are the same). */
  lemma QuoteMetadataSource(s: State, ev: PoolCreated,
                            baseOutcome: CoinMetadata.FetchOutcome,
                            quoteOutcome: CoinMetadata.FetchOutcome)
    requires Valid(s) && |ev.typeArguments| >= 2
    ensures var r := OnPoolCreated(s, ev, baseOutcome, quoteOutcome);
            var mid := CoinMetadata.Resolve(s.coins, ev.typeArguments[0], baseOutcome).cache;
            var key := CoinMetadata.NormalizeKey(ev.typeArguments[1]);
            && (key in mid.values && mid.values[key].Some? ==>
                  && r.record.quoteSymbol == Some(mid.values[key].value.symbol)
                  && r.record.quoteDecimals == Some(mid.values[key].value.decimals))
            && (key in mid.values && mid.values[key].None? ==>
                  r.record.quoteSymbol == None && r.record.quoteDecimals == None)
            && (key !in mid.values && quoteOutcome.Ok? ==>
                  && r.record.quoteSymbol == Some(quoteOutcome.meta.symbol)
                  && r.record.quoteDecimals == Some(quoteOutcome.meta.decimals))
            && (key !in mid.values && !quoteOutcome.Ok? ==>
                  r.record.quoteSymbol == None && r.record.quoteDecimals == None)
  {
    var base := CoinMetadata.Resolve(s.coins, ev.typeArguments[0], baseOutcome);
    var quote := CoinMetadata.Resolve(base.cache, ev.typeArguments[1], quoteOutcome);
    var r := OnPoolCreated(s, ev, baseOutcome, quoteOutcome);
    assert r.record.quoteSymbol == SymbolOf(quote.result);
    assert r.record.quoteDecimals == DecimalsOf(quote.result);
  }

  /** The requests the handler sends are those of the base resolution,
      then those of the quote resolution, in that order: a coin is asked
      for exactly when it misses the coin cache at its turn. */
  lemma RequestsInOrder(s: State, ev: PoolCreated,
                        baseOutcome: CoinMetadata.FetchOutcome,
                        quoteOutcome: CoinMetadata.FetchOutcome)
    requires Valid(s)
    ensures var r := OnPoolCreated(s, ev, baseOutcome, quoteOutcome);
            |ev.typeArguments| >= 1 ==>
              var base := CoinMetadata.Resolve(s.coins, ev.typeArguments[0], baseOutcome);
              && (r.Rejected? ==> r.fetched == CoinMetadata.Requested(base))
              && (r.Created? ==>
                    r.fetched == CoinMetadata.Requested(base)
                      + CoinMetadata.Requested(CoinMetadata.Resolve(base.cache, ev.typeArguments[1], quoteOutcome)))
  {
  }

  /** The base coin's entry, once the base resolution has stored it, is
      still in the coin cache when the handler finishes: the quote
      resolution can only evict the least recently used key, and the base
      coin has just become the most recently used one. */
  lemma BaseEntryKept(s: State, ev: PoolCreated,
                      baseOutcome: CoinMetadata.FetchOutcome,
                      quoteOutcome: CoinMetadata.FetchOutcome)
    requires Valid(s) && |ev.typeArguments| >= 2
    ensures var r := OnPoolCreated(s, ev, baseOutcome, quoteOutcome);
            var mid := CoinMetadata.Resolve(s.coins, ev.typeArguments[0], baseOutcome).cache;
            var key := CoinMetadata.NormalizeKey(ev.typeArguments[0]);
            key in mid.values ==> key in r.state.coins.values && r.state.coins.values[key] == mid.values[key]
  {
  }

  /** What a resolution leaves cached for the coin gives the same symbol
      and decimals as what it returned. */
  lemma CachedEntryMatchesResult(cache: CoinMetadata.CoinCache, coinType: string,
                                 outcome: CoinMetadata.FetchOutcome)
    requires Lru.Valid(cache)
    ensures var r := CoinMetadata.Resolve(cache, coinType, outcome);
            var key := CoinMetadata.NormalizeKey(coinType);
            key in r.cache.values ==>
              && SymbolOf(CoinMetadata.Cached(r.cache.values[key])) == SymbolOf(r.result)
              && DecimalsOf(CoinMetadata.Cached(r.cache.values[key])) == DecimalsOf(r.result)
  {
  }

  /** A pool-created event whose base coin is already cached makes no
      request for that coin. */
  lemma CachedBaseNotRequested(s: State, ev: PoolCreated,
                               baseOutcome: CoinMetadata.FetchOutcome,
                               quoteOutcome: CoinMetadata.FetchOutcome)
    requires Valid(s) && |ev.typeArguments| >= 2
    requires CoinMetadata.NormalizeKey(ev.typeArguments[0]) in s.coins.values
    ensures CoinMetadata.NormalizeKey(ev.typeArguments[0]) !in OnPoolCreated(s, ev, baseOutcome, quoteOutcome).fetched
  {
    var base := CoinMetadata.Resolve(s.coins, ev.typeArguments[0], baseOutcome);
    var quote := CoinMetadata.Resolve(base.cache, ev.typeArguments[1], quoteOutcome);
    assert base.fetched == None;
    assert quote.fetched.Some? ==> quote.fetched.value != CoinMetadata.NormalizeKey(ev.typeArguments[0]);
  }

  /** A coin whose metadata one pool-created event resolved, or whose
      request failed, is not asked for again by the next pool-created event
      that uses it as base coin: the second record carries the same base
      metadata, and no request for that coin is made. Only an empty answer
      on a miss leaves the coin to be asked for again. */
  lemma CoinResolvedOnceAcrossPools(s: State, ev1: PoolCreated, ev2: PoolCreated,
                                    b1: CoinMetadata.FetchOutcome, q1: CoinMetadata.FetchOutcome,
                                    b2: CoinMetadata.FetchOutcome, q2: CoinMetadata.FetchOutcome)
    requires Valid(s) && |ev1.typeArguments| >= 2 && |ev2.typeArguments| >= 2
    requires CoinMetadata.NormalizeKey(ev2.typeArguments[0]) == CoinMetadata.NormalizeKey(ev1.typeArguments[0])
    requires CoinMetadata.NormalizeKey(ev1.typeArguments[0]) in s.coins.values || !b1.Empty?
    ensures var r1 := OnPoolCreated(s, ev1, b1, q1);
            var r2 := OnPoolCreated(r1.state, ev2, b2, q2);
            && r2.record.baseSymbol == r1.record.baseSymbol
            && r2.record.baseDecimals == r1.record.baseDecimals
            && CoinMetadata.NormalizeKey(ev1.typeArguments[0]) !in r2.fetched
  {
    var key := CoinMetadata.NormalizeKey(ev1.typeArguments[0]);
    var base1 := CoinMetadata.Resolve(s.coins, ev1.typeArguments[0], b1);
    var r1 := OnPoolCreated(s, ev1, b1, q1);
    BaseEntryKept(s, ev1, b1, q1);
    CachedEntryMatchesResult(s.coins, ev1.typeArguments[0], b1);
    assert key in base1.cache.values;
    var entry := base1.cache.values[key];
    assert key in r1.state.coins.values && r1.state.coins.values[key] == entry;
    var base2 := CoinMetadata.Resolve(r1.state.coins, ev2.typeArguments[0], b2);
    assert base2.result == CoinMetadata.Cached(entry);
    CachedBaseNotRequested(r1.state, ev2, b2, q2);
  }

  /** No other pool's record changes: a record that is still cached
      afterwards is the one cached before, and a record that is gone was
      the least recently used one, evicted because a new pool id arrived in
      a full cache. */
  lemma OtherPoolsKept(s: State, ev: PoolCreated,
                       baseOutcome: CoinMetadata.FetchOutcome,
                       quoteOutcome: CoinMetadata.FetchOutcome)
    requires Valid(s)
    ensures var r := OnPoolCreated(s, ev, baseOutcome, quoteOutcome);
            && (forall p | p in r.state.pools.values && p != ev.poolId ::
                  p in s.pools.values && r.state.pools.values[p] == s.pools.values[p])
            && (forall p | p in s.pools.values && p !in r.state.pools.values ::
                  ev.poolId !in s.pools.values && |s.pools.order| == PoolCapacity && p == s.pools.order[0])
  {
  }

  /** Creating a pool a second time replaces its record with the new one. */
  lemma RecreationOverwrites(s: State, ev1: PoolCreated, ev2: PoolCreated,
                             b1: CoinMetadata.FetchOutcome, q1: CoinMetadata.FetchOutcome,
                             b2: CoinMetadata.FetchOutcome, q2: CoinMetadata.FetchOutcome)
    requires Valid(s) && |ev1.typeArguments| >= 2 && |ev2.typeArguments| >= 2
    requires ev1.poolId == ev2.poolId
    ensures var r1 := OnPoolCreated(s, ev1, b1, q1);
            var r2 := OnPoolCreated(r1.state, ev2, b2, q2);
            && r2.state.pools.values[ev2.poolId] == r2.record
            && r2.record.takerFee == ev2.takerFee
            && r2.record.baseAssetId == ev2.typeArguments[0]
  {
  }
}
